=== FILE: README.md ===
# GSTR JSON to Excel converter: the `/convert` flattening

The backend of this converter takes a GST return downloaded from the GST
portal as JSON (a GSTR-2A/2B style document) and answers with an Excel
workbook. Inside `convert_json` it:

- guards the upload: no `file` part, or a file part with an empty name, is
  answered 400;
- navigates to `data.docdata` with `dict.get`, so a missing level falls back
  to `{}`;
- flattens the `b2b` suppliers into one row per invoice (`inv`) and the `cdnr`
  suppliers into one row per credit/debit note (`nt`), each row carrying the
  supplier's GSTIN, trade name and filing date;
- writes a "B2B" sheet when there are B2B rows and a "CDNR" sheet when there
  are CDNR rows;
- answers any exception raised on the way with 500 and the exception text.

The model follows the Python code's own behaviour on malformed input. A JSON
value is a datatype (`JsonValue`). The few Python operations the handler
applies (`.get`, `in`, `[...]`, `for`) are modelled with the exceptions
Python raises on the wrong type (`Python`). Rows and columns are in `Rows`.
The loops are in `Flatten`, the sheet selection in `Sheets`, and the request
handler in `Handler`. Properties relating several operations are in
`Properties`.

Each exception becomes an `Err` recording which operation failed and on what
type of value. The first exception ends the conversion, so a failed
conversion carries no rows.

Only an absent key counts as absent, because `.get` keeps a present value
even when it is null. A present `data` that is not a dict raises, and the
handler answers 500: `{"data": null}` fails. A present `docdata` raises when
it is None, a bool or a number (`{"data": {"docdata": null}}` fails on `in`),
or when it is a list or str that contains a category key, since `in` tests a
list's elements and a str's substrings and the following `[...]` then fails.
A list or str `docdata` without either key gives no rows and no error
(`Properties.PresentButWrongTypeFails`, `Properties.ListOrStrDocDataYieldsNothing`).

## Model

| member | source | states |
|---|---|---|
| `Python.GetOr` | backend/app.py:32 | `v.get(key, default)` succeeds exactly on a dict; on anything else it raises AttributeError naming the value's type |
| `Python.Contains` | backend/app.py:35 | `key in v` answers for a dict, a list or a str and raises TypeError naming the type for None, a bool or a number |
| `Python.Subscript` | backend/app.py:36 | `v[key]` succeeds exactly when `v` is a dict holding `key` |
| `Python.Chars` | backend/app.py:36 | iterating a str visits one one-character string per character, in order |
| `Python.KeyItems` | backend/app.py:36 | iterating a dict visits as many strs as it has keys, each a key of the dict and no two equal, so every key exactly once |
| `Python.Iterate` | backend/app.py:36 | `for` succeeds exactly on a list, str or dict and visits `len(v)` items; a list yields its own elements, the others yield strs; None, bools and numbers raise TypeError |
| `Rows.RowOf` | backend/app.py:42-54 | a line item becomes a row of its category's kind, carrying the supplier's GSTIN, trade name and filing date |
| `Rows.RowFollowsLayout` | backend/app.py:42-54 | every row has one cell per header column, and each cell is exactly what its column reads: the supplier key or the item key, with that column's default |
| `Rows.HeaderShape` | backend/app.py:42-76 | B2B has the 11 columns GSTIN to Filing Date including POS; CDNR has the 11 columns with Note No, Note Date and Note Type and no POS |
| `Rows.TaxDefaults` | backend/app.py:47-51 | IGST, CGST and SGST are 0 when the item lacks the key and the item's own value (null included) when it has it; Value and Taxable Val are null when absent |
| `Flatten.DocData` | backend/app.py:32 | an absent `data` or `docdata` falls back to `{}`; a present one keeps its value; a non-dict document or `data` raises AttributeError on its type |
| `Flatten.ItemRows` | backend/app.py:41-54 | the inner loop succeeds exactly when every line item is a dict, giving one row per item in item order, each that item's projection |
| `Flatten.ItemRowsFailAtFirstNonObject` | backend/app.py:45 | a failing inner loop fails with the AttributeError of the first line item that is not a dict |
| `Flatten.SupplierRows` | backend/app.py:37-41 | a non-dict supplier raises AttributeError; a supplier without the item key gives no rows; an item value that cannot be iterated (null, a bool, a number) raises TypeError on the `for`; when it succeeds it gives `len` of its item list rows, all of its category, after reading `ctin`, `trdnm` and `supfildt` once (`Rows.SupplierOf`) |
| `Flatten.SupplierRowsSucceedIff` | backend/app.py:37-45 | a supplier's rows are produced exactly when it is a dict whose line items can be iterated and are all dicts |
| `Flatten.SupplierItemError` | backend/app.py:41-45 | a dict supplier whose line items can be iterated fails with the AttributeError of the type of its first line item that is not a dict |
| `Flatten.SupplierRowsProjectItems` | backend/app.py:41-54 | a supplier's rows are its line items' projections in order, and each carries that supplier's `ctin`, `trdnm` and `supfildt` |
| `Flatten.FlattenSuppliers` | backend/app.py:36-54 | the outer loop gives as many rows as its suppliers have line items, all of its category |
| `Flatten.Section` | backend/app.py:35-36 | a dict without the category key gives no rows; one holding a list flattens that list; None, bools and numbers raise on `in`; a list or str docdata gives no rows unless the key is an element or substring, and then raises on `[...]` |
| `Flatten.Convert` | backend/app.py:28-76 | the conversion succeeds exactly when `docdata` and both categories do, and then holds the B2B and the CDNR rows; otherwise it carries the first error, `docdata` before B2B before CDNR; each category's list holds only rows of that category's kind |
| `Sheets.Table` | backend/app.py:82 | a sheet has one data row per flattened row, in order, holding that row's cells |
| `Sheets.SheetsOf` | backend/app.py:81-84 | a "B2B" sheet exists iff there is a B2B row and a "CDNR" sheet iff there is a CDNR row; no sheet is empty; B2B is written before CDNR |
| `Handler.Process` | backend/app.py:24-93 | an unparsable upload and a failed conversion fail with their error; a writer failure fails with the writer's message; success needs a conversion and a written workbook, and returns that workbook |
| `Handler.Handle` | backend/app.py:17-22 | no `file` part or an empty filename is answered 400 with its message, exactly then; 500 exactly when processing fails, with its error; a download has the xlsx mimetype and the name `GSTR_Converted.xlsx` |
| `Properties.AbsentBlockYieldsNothing` | backend/app.py:32 | a document without `data`, or with `data` but no `docdata`, converts to no rows and no sheets |
| `Properties.PresentButWrongTypeFails` | backend/app.py:32-35 | a non-dict document or `data` fails with AttributeError on its type; a null `docdata` fails with TypeError on `in` |
| `Properties.ListOrStrDocDataYieldsNothing` | backend/app.py:35 | a `docdata` that is a list without either category key as an element, or a str without either as a substring, converts to no rows and no error |
| `Properties.ConvertReadsOnlyDocData` | backend/app.py:32-76 | any document whose `data.docdata` is `m` converts exactly as `{"data": {"docdata": m}}`: sibling keys are never read |
| `Properties.RowCount` | backend/app.py:35-41 | for any document, after a successful conversion each category has as many rows as its listed suppliers have line items; a category that is absent or not a list has none |
| `Properties.SectionNonList` | backend/app.py:35-37 | a category whose value is null, a bool or a number raises TypeError on the `for`; a str or dict value gives no rows when empty and otherwise raises AttributeError on the first `.get` of a str |
| `Properties.StringsYieldNoRows` | backend/app.py:36-37 | suppliers that are strs (the keys of a dict, the characters of a str) only flatten without error when there are none, since `.get` on a str raises |
| `Properties.FlattenStep` | backend/app.py:36 | one outer-loop step: the first supplier's rows followed by the rest's, or the first error |
| `Properties.FlattenFailsAtFirstFailure` | backend/app.py:36-41 | the outer loop succeeds iff every supplier does, and otherwise fails with the error of the first failing supplier |
| `Properties.FlattenAppend` | backend/app.py:36-42 | the rows of a concatenated supplier list are the concatenation of the two parts' rows; the first failing part decides the error |
| `Properties.FlattenSingle` | backend/app.py:36 | one supplier's list gives exactly that supplier's rows |
| `Properties.SupplierSucceeded` | backend/app.py:36-41 | in a successful outer loop every supplier succeeded |
| `Properties.FlattenSplit` | backend/app.py:36-42 | a successful outer loop's rows are the earlier suppliers' rows, then supplier `i`'s, then the later suppliers' |
| `Properties.SupplierBlock` | backend/app.py:36-42 | row `j` of supplier `i` sits right after all rows of the suppliers before `i` |
| `Properties.RowPosition` | backend/app.py:36-54 | line item `j` of supplier `i` is the row at position (items of earlier suppliers) + `j`, is that item's projection and carries supplier `i`'s fields |
| `Properties.SectionReadsOnlyItsKey` | backend/app.py:35-36 | a category's rows depend only on the value under its own key |
| `Properties.CategoriesIndependent` | backend/app.py:57-76 | when both conversions succeed, adding, removing or changing the other category's value never changes a category's rows; `Properties.SectionReadsOnlyItsKey` is the unconditional statement |
| `Properties.FailingCdnrDropsB2B` | backend/app.py:57-58 | a null `cdnr` makes the whole conversion fail with TypeError on the `for`, unless B2B failed first, so valid B2B rows are lost |
| `Properties.EmptyListGetsNoSheet` | backend/app.py:81-84 | in any document, a category holding an empty list gets no sheet |
| `Properties.OnlyB2BGetsOneSheet` | backend/app.py:81-82 | in any document, B2B rows and no `cdnr` key give exactly one sheet, "B2B" |
| `Properties.GuardsComeFirst` | backend/app.py:17-22 | without a usable file the answer is 400 whatever the content and whatever the writer would do |
| `Properties.FailureIsServerError` | backend/app.py:95-96 | a parse or flattening failure is answered 500 with that error, independently of the writer |
| `Properties.ExampleProjection` | backend/app.py:49-51 | the example invoice without CGST and SGST gets 0 in both cells |
| `Properties.ExampleSupplierRows` | backend/app.py:41-54 | the example supplier with one invoice gives exactly one row |
| `Properties.WorkedExample` | backend/app.py:28-84 | one supplier with one invoice converts to one B2B row and exactly one "B2B" sheet holding that row under the B2B header |

## Left out

- Flask routing, the `/` liveness endpoint, CORS and `app.run`: HTTP plumbing outside the conversion.
- `json.load`: byte parsing is not modelled. The parse outcome arrives with the request, either a JSON value or an opaque failure message.
- The pandas/openpyxl workbook writer, `BytesIO` and `send_file`: foreign library code. The writer is a function parameter from the list of sheets to a workbook or a failure. Each sheet is a name, a header and data rows.
- Handler.Process: openpyxl refuses to save a workbook with no sheets, so a document with no rows at all would fail in the writer. The model leaves this to the writer parameter and does not state it.
- The wording of exception messages: an error records the exception kind and the Python type involved, not the text `str(e)` would give.
- Numeric semantics of `val`, `txval` and the tax values: they are copied through untouched, so numbers are opaque literals (`0` is the literal `"0"`).
- The React frontend: UI state, a network call and a download trigger, with no conversion logic.
- Python.KeyItems: Python iterates a dict in insertion order, which a map does not record. The model fixes an arbitrary order. The order never shows, because the first `.get` on a str item raises.
- Python.Len: answers 0 for None, bools and numbers, where Python's `len` raises. It is only used to count items that were iterated successfully.
- Writing each category's rows as a table with pandas column inference: the header is given by the fixed column layout, which matches the dict keys of every row.

=== FILE: flatten.dfy ===
/**
 The flattening at the heart of the `/convert` handler: navigate to
 `data.docdata`, walk the suppliers of `b2b` and of `cdnr`, and emit one row
 per line item, supplier by supplier and item by item. Every exception Python
 would raise on a wrongly shaped document is an `Err`, and the first one ends
 the conversion.
 */
module Flatten {
  import opened JsonValue
  import opened Python
  import opened Rows

  /** `data.get('data', {}).get('docdata', {})`: a missing key falls back to `{}`,
      a present key keeps its value, and `.get` on a non-dict raises. */
  function DocData(doc: Json): (r: Result<Json>)
    ensures !doc.JObj? ==> r == Err(NoGetAttribute(TypeOf(doc)))
    ensures doc.JObj? && "data" !in doc.fields ==> r == Ok(EmptyObject)
    ensures doc.JObj? && "data" in doc.fields && !doc.fields["data"].JObj? ==>
      r == Err(NoGetAttribute(TypeOf(doc.fields["data"])))
    ensures doc.JObj? && "data" in doc.fields && doc.fields["data"].JObj? ==>
      r == Ok(Lookup(doc.fields["data"].fields, "docdata", EmptyObject))
  {
    var data :- GetOr(doc, "data", EmptyObject);
    GetOr(data, "docdata", EmptyObject)
  }

  /** The row belongs to the category's sheet. */
  predicate OfCategory(row: Row, cat: Category)
  {
    row.B2BRow? <==> cat == B2B
  }

  /** The row carries the supplier's `ctin`, `trdnm` and `supfildt` verbatim. */
  predicate CarriesSupplier(row: Row, supplier: Json)
  {
    && supplier.JObj?
    && row.gstin == Lookup(supplier.fields, "ctin", JNull)
    && row.tradeName == Lookup(supplier.fields, "trdnm", JNull)
    && row.filingDate == Lookup(supplier.fields, "supfildt", JNull)
  }

  /** `j` is the first line item that is not a dict. */
  predicate FirstNonObject(items: seq<Json>, j: int)
  {
    && 0 <= j < |items|
    && !items[j].JObj?
    && forall i :: 0 <= i < j ==> items[i].JObj?
  }

  /** The inner loop: one row per line item, in order. The first item that is
      not a dict raises on its first `.get`. */
  function ItemRows(cat: Category, sup: Supplier, items: seq<Json>): (r: Result<seq<Row>>)
    ensures r.Ok? <==> forall j :: 0 <= j < |items| ==> items[j].JObj?
    ensures r.Ok? ==> |r.value| == |items|
    ensures r.Ok? ==> forall j :: 0 <= j < |items| ==> r.value[j] == RowOf(cat, sup, items[j].fields)
  {
    if |items| == 0 then Ok([])
    else
      var head := items[0];
      if !head.JObj? then Err(NoGetAttribute(TypeOf(head)))
      else
        var rest :- ItemRows(cat, sup, items[1..]);
        assert forall j :: 1 <= j < |items| ==> items[j] == items[1..][j - 1];
        Ok([RowOf(cat, sup, head.fields)] + rest)
  }

  /** The inner loop fails on the first line item that is not a dict, with
      the AttributeError of that item's type. */
  lemma {:induction false} ItemRowsFailAtFirstNonObject(cat: Category, sup: Supplier, items: seq<Json>)
    requires ItemRows(cat, sup, items).Err?
    ensures exists j :: FirstNonObject(items, j) && ItemRows(cat, sup, items).error == NoGetAttribute(TypeOf(items[j]))
  {
    if items[0].JObj? {
      ItemRowsFailAtFirstNonObject(cat, sup, items[1..]);
      var j :| FirstNonObject(items[1..], j) && ItemRows(cat, sup, items[1..]).error == NoGetAttribute(TypeOf(items[1..][j]));
      assert FirstNonObject(items, j + 1);
    } else {
      assert FirstNonObject(items, 0);
    }
  }

  /** Python's `len(supplier.get(key, []))` for the category's line-item key:
      0 when the supplier has no such key. */
  function ItemCount(cat: Category, supplier: Json): nat
  {
    if supplier.JObj? then Len(Lookup(supplier.fields, ItemsKey(cat), EmptyList)) else 0
  }

  /** The sum of the suppliers' item counts. */
  function TotalItems(cat: Category, suppliers: seq<Json>): nat
  {
    if |suppliers| == 0 then 0 else ItemCount(cat, suppliers[0]) + TotalItems(cat, suppliers[1..])
  }

  /** The line items the inner loop visits for a supplier whose items can be
      iterated; empty otherwise. */
  ghost function LineItems(cat: Category, supplier: Json): seq<Json>
  {
    if supplier.JObj? then
      match Iterate(Lookup(supplier.fields, ItemsKey(cat), EmptyList))
      case Ok(items) => items
      case Err(_) => []
    else []
  }

  /** One iteration of the outer loop: read the supplier fields once, then
      flatten the line items. A supplier without the line-item key contributes
      no rows. */
  ghost function SupplierRows(cat: Category, supplier: Json): (r: Result<seq<Row>>)
    ensures !supplier.JObj? ==> r == Err(NoGetAttribute(TypeOf(supplier)))
    ensures supplier.JObj? && ItemsKey(cat) !in supplier.fields ==> r == Ok([])
    ensures supplier.JObj? && !Iterate(Lookup(supplier.fields, ItemsKey(cat), EmptyList)).Ok? ==>
      r == Err(NotIterable(TypeOf(Lookup(supplier.fields, ItemsKey(cat), EmptyList))))
    ensures r.Ok? ==> |r.value| == ItemCount(cat, supplier)
    ensures r.Ok? ==> forall k :: 0 <= k < |r.value| ==> OfCategory(r.value[k], cat)
  {
    match supplier
    case JObj(m) =>
      // Once the first `.get` has succeeded the supplier is a dict, and the
      // remaining `.get` calls cannot raise.
      var items :- Iterate(Lookup(m, ItemsKey(cat), EmptyList));
      ItemRows(cat, SupplierOf(m), items)
    case _ => Err(NoGetAttribute(TypeOf(supplier)))
  }

  /** A supplier's rows are its line items' projections, in item order, and
      all carry the supplier's own fields. */
  lemma SupplierRowsProjectItems(cat: Category, supplier: Json)
    requires SupplierRows(cat, supplier).Ok?
    ensures supplier.JObj? && |LineItems(cat, supplier)| == |SupplierRows(cat, supplier).value|
    ensures forall j :: 0 <= j < |SupplierRows(cat, supplier).value| ==>
      LineItems(cat, supplier)[j].JObj?
      && SupplierRows(cat, supplier).value[j] == RowOf(cat, SupplierOf(supplier.fields), LineItems(cat, supplier)[j].fields)
    ensures forall k :: 0 <= k < |SupplierRows(cat, supplier).value| ==>
      CarriesSupplier(SupplierRows(cat, supplier).value[k], supplier)
  {
  }

  /** A supplier's rows can be produced exactly when it is a dict whose line
      items can be iterated and are all dicts. */
  lemma SupplierRowsSucceedIff(cat: Category, supplier: Json)
    ensures SupplierRows(cat, supplier).Ok? <==>
      && supplier.JObj?
      && Iterate(Lookup(supplier.fields, ItemsKey(cat), EmptyList)).Ok?
      && forall j :: 0 <= j < |LineItems(cat, supplier)| ==> LineItems(cat, supplier)[j].JObj?
  {
    if supplier.JObj? {
      var items := Iterate(Lookup(supplier.fields, ItemsKey(cat), EmptyList));
      if items.Ok? {
        assert LineItems(cat, supplier) == items.value;
        assert SupplierRows(cat, supplier) == ItemRows(cat, SupplierOf(supplier.fields), items.value);
      }
    }
  }

  /** A dict supplier whose line items can be iterated fails on the first
      line item that is not a dict, with the AttributeError of its type. */
  lemma SupplierItemError(cat: Category, supplier: Json)
    requires SupplierRows(cat, supplier).Err? && supplier.JObj?
    requires Iterate(Lookup(supplier.fields, ItemsKey(cat), EmptyList)).Ok?
    ensures exists j :: FirstNonObject(LineItems(cat, supplier), j) && SupplierRows(cat, supplier).error == NoGetAttribute(TypeOf(LineItems(cat, supplier)[j]))
  {
    var items := Iterate(Lookup(supplier.fields, ItemsKey(cat), EmptyList)).value;
    assert LineItems(cat, supplier) == items;
    ItemRowsFailAtFirstNonObject(cat, SupplierOf(supplier.fields), items);
    var j :| FirstNonObject(items, j)
      && ItemRows(cat, SupplierOf(supplier.fields), items).error == NoGetAttribute(TypeOf(items[j]));
    assert FirstNonObject(LineItems(cat, supplier), j);
  }

  /** `i` is the first supplier whose rows cannot be produced. */
  ghost predicate FirstFailing(cat: Category, suppliers: seq<Json>, i: int)
  {
    && 0 <= i < |suppliers|
    && SupplierRows(cat, suppliers[i]).Err?
    && forall h :: 0 <= h < i ==> SupplierRows(cat, suppliers[h]).Ok?
  }

  /** The outer loop: the suppliers' rows, concatenated in supplier order, or
      the error of the first supplier that fails. */
  ghost function FlattenSuppliers(cat: Category, suppliers: seq<Json>): (r: Result<seq<Row>>)
    ensures r.Ok? ==> |r.value| == TotalItems(cat, suppliers)
    ensures r.Ok? ==> forall k :: 0 <= k < |r.value| ==> OfCategory(r.value[k], cat)
  {
    if |suppliers| == 0 then Ok([])
    else
      var first :- SupplierRows(cat, suppliers[0]);
      var rest :- FlattenSuppliers(cat, suppliers[1..]);
      var rows := first + rest;
      assert forall k :: |first| <= k < |rows| ==> rows[k] == rest[k - |first|];
      Ok(rows)
  }

  /** `if key in docdata: for supplier in docdata[key]: ...` for one category. */
  ghost function Section(cat: Category, docdata: Json): (r: Result<seq<Row>>)
    ensures docdata.JObj? && SectionKey(cat) !in docdata.fields ==> r == Ok([])
    ensures docdata.JObj? && SectionKey(cat) in docdata.fields && docdata.fields[SectionKey(cat)].JArr? ==>
      r == FlattenSuppliers(cat, docdata.fields[SectionKey(cat)].items)
    ensures docdata.JNull? || docdata.JBool? || docdata.JNum? ==> r == Err(NotContainer(TypeOf(docdata)))
    ensures docdata.JArr? ==> r == (if JStr(SectionKey(cat)) in docdata.items then Err(BadSubscript(ListType)) else Ok([]))
    ensures docdata.JStr? ==> r == (if IsSubstring(SectionKey(cat), docdata.s) then Err(BadSubscript(StrType)) else Ok([]))
    ensures r.Ok? ==> forall k :: 0 <= k < |r.value| ==> OfCategory(r.value[k], cat)
  {
    var present :- Contains(docdata, SectionKey(cat));
    if !present then Ok([])
    else
      var suppliersValue :- Subscript(docdata, SectionKey(cat));
      var suppliers :- Iterate(suppliersValue);
      FlattenSuppliers(cat, suppliers)
  }

  /** The rows of both categories. */
  datatype Flattened = Flattened(b2b: seq<Row>, cdnr: seq<Row>)

  /** The rows of one category. */
  function RowsOf(f: Flattened, cat: Category): seq<Row>
  {
    match cat
    case B2B => f.b2b
    case CDNR => f.cdnr
  }

  /** The whole flattening: B2B first, then CDNR. The first error wins and no
      rows are returned with it. */
  ghost function Convert(doc: Json): (r: Result<Flattened>)
    ensures r.Ok? <==> DocData(doc).Ok? && Section(B2B, DocData(doc).value).Ok? && Section(CDNR, DocData(doc).value).Ok?
    ensures r.Ok? ==> r.value == Flattened(Section(B2B, DocData(doc).value).value, Section(CDNR, DocData(doc).value).value)
    ensures DocData(doc).Err? ==> r == Err(DocData(doc).error)
    ensures DocData(doc).Ok? && Section(B2B, DocData(doc).value).Ok? && Section(CDNR, DocData(doc).value).Err? ==>
      r == Err(Section(CDNR, DocData(doc).value).error)
    ensures r.Ok? ==> forall cat: Category, k :: 0 <= k < |RowsOf(r.value, cat)| ==> OfCategory(RowsOf(r.value, cat)[k], cat)
    ensures r.Err? && DocData(doc).Ok? && Section(B2B, DocData(doc).value).Err? ==>
      r.error == Section(B2B, DocData(doc).value).error
  {
    var docdata :- DocData(doc);
    var b2b :- Section(B2B, docdata);
    var cdnr :- Section(CDNR, docdata);
    Ok(Flattened(b2b, cdnr))
  }
}

=== FILE: handler.dfy ===
/**
 The `/convert` request handler around the flattening: the two upload guards
 answered with 400, and the catch-all that answers any exception raised while
 parsing, flattening or writing with 500 and the exception, never with part
 of a workbook. Parsing the upload and encoding the workbook are not part of
 this model: the parse outcome arrives with the request, and the writer is a
 parameter.
 */
module Handler {
  import opened JsonValue
  import opened Python
  import opened Flatten
  import opened Sheets

  /** What `json.load` made of the uploaded bytes. */
  datatype Parsed = Parsed(doc: Json) | Unparsable(message: string)

  /** One file part of the multipart form. */
  datatype FileField = FileField(filename: string, content: Parsed)

  /** The request's file parts, by form field name. */
  datatype Request = Request(files: map<string, FileField>)

  /** What the spreadsheet writer made of the sheets. */
  datatype WriterOutcome = Written(workbook: seq<bv8>) | WriteFailed(message: string)

  datatype Response =
    | ClientError(message: string)
    | ServerError(error: Error)
    | Download(workbook: seq<bv8>, mimetype: string, filename: string)

  const SpreadsheetMime: string := "application/vnd.openxmlformats-officedocument.spreadsheetml.sheet"
  const DownloadName: string := "GSTR_Converted.xlsx"

  function Status(r: Response): int
  {
    match r
    case ClientError(_) => 400
    case ServerError(_) => 500
    case Download(_, _, _) => 200
  }

  /** The request carries no usable file: no `file` part, or one without a name. */
  predicate NoFile(req: Request)
  {
    "file" !in req.files || req.files["file"].filename == ""
  }

  /** The body of the `try`: parse, flatten, select the sheets, write them. */
  ghost function Process(content: Parsed, write: seq<Sheet> -> WriterOutcome): (r: Result<seq<bv8>>)
    ensures content.Unparsable? ==> r == Err(NotJson(content.message))
    ensures content.Parsed? && Convert(content.doc).Err? ==> r == Err(Convert(content.doc).error)
    ensures r.Ok? <==> content.Parsed? && Convert(content.doc).Ok?
                       && write(SheetsOf(Convert(content.doc).value)).Written?
    ensures r.Ok? ==> r.value == write(SheetsOf(Convert(content.doc).value)).workbook
    ensures content.Parsed? && Convert(content.doc).Ok? && write(SheetsOf(Convert(content.doc).value)).WriteFailed? ==>
      r == Err(WriterFailed(write(SheetsOf(Convert(content.doc).value)).message))
  {
    match content
    case Unparsable(message) => Err(NotJson(message))
    case Parsed(doc) =>
      var rows :- Convert(doc);
      match write(SheetsOf(rows))
      case Written(workbook) => Ok(workbook)
      case WriteFailed(message) => Err(WriterFailed(message))
  }

  /** `convert_json`: the guards first, then the guarded processing. */
  ghost function Handle(req: Request, write: seq<Sheet> -> WriterOutcome): (r: Response)
    ensures "file" !in req.files ==> r == ClientError("No file uploaded")
    ensures "file" in req.files && req.files["file"].filename == "" ==> r == ClientError("No file selected")
    ensures Status(r) == 400 <==> NoFile(req)
    ensures Status(r) == 500 <==> !NoFile(req) && Process(req.files["file"].content, write).Err?
    ensures r.ServerError? ==> r.error == Process(req.files["file"].content, write).error
    ensures r.Download? ==> r.mimetype == SpreadsheetMime && r.filename == DownloadName
    ensures r.Download? ==> r.workbook == Process(req.files["file"].content, write).value
  {
    if "file" !in req.files then ClientError("No file uploaded")
    else
      var file := req.files["file"];
      if file.filename == "" then ClientError("No file selected")
      else
        match Process(file.content, write)
        case Ok(workbook) => Download(workbook, SpreadsheetMime, DownloadName)
        case Err(e) => ServerError(e)
  }
}

=== FILE: json_value.dfy ===
/**
 The JSON document the converter receives, as Python's `json.load` hands it
 over: null, booleans, numbers, strings, lists and dicts. Numbers are kept as
 their literal text, because the converter copies them into cells and never
 computes with them.
 */
module JsonValue {

  datatype Json =
    | JNull
    | JBool(b: bool)
    | JNum(literal: string)
    | JStr(s: string)
    | JArr(items: seq<Json>)
    | JObj(fields: map<string, Json>)

  /** The Python class a JSON value becomes. `int` and `float` are merged:
      they behave alike in every operation the converter applies. */
  datatype PyType = NoneType | BoolType | NumberType | StrType | ListType | DictType

  function TypeOf(v: Json): PyType
  {
    match v
    case JNull => NoneType
    case JBool(_) => BoolType
    case JNum(_) => NumberType
    case JStr(_) => StrType
    case JArr(_) => ListType
    case JObj(_) => DictType
  }

  /** The Python literal `0`, the default of the three tax columns. */
  const Zero: Json := JNum("0")

  /** The empty dict `{}`, the default of the two navigation steps. */
  const EmptyObject: Json := JObj(map[])

  /** The empty list `[]`, the default of a supplier's line-item list. */
  const EmptyList: Json := JArr([])
}

=== FILE: properties.dfy ===
/**
 Properties of the conversion as a whole: what an absent or malformed data
 block yields, how many rows each category has and in which order, that the
 two categories do not influence each other's rows, which sheets are written,
 and that the request guards come before any processing.
 */
module Properties {
  import opened JsonValue
  import opened Python
  import opened Rows
  import opened Flatten
  import opened Sheets
  import opened Handler

  /** The document `{"data": {"docdata": docdata}}`. */
  function Document(docdata: map<string, Json>): Json
  {
    JObj(map["data" := JObj(map["docdata" := JObj(docdata)])])
  }

  /** The suppliers a category lists when its value is a list; none otherwise. */
  function Suppliers(cat: Category, docdata: map<string, Json>): seq<Json>
  {
    if SectionKey(cat) in docdata && docdata[SectionKey(cat)].JArr? then docdata[SectionKey(cat)].items else []
  }

  /** Both maps hold the same value under `key`, or neither holds `key`. */
  predicate AgreeOn(m: map<string, Json>, m': map<string, Json>, key: string)
  {
    (key in m <==> key in m') && (key in m ==> m[key] == m'[key])
  }

  /** A document without `data`, or whose `data` has no `docdata`, converts to
      no rows and no sheets: absence is not an error. */
  lemma AbsentBlockYieldsNothing(doc: Json)
    requires doc.JObj?
    requires "data" !in doc.fields || (doc.fields["data"].JObj? && "docdata" !in doc.fields["data"].fields)
    ensures Convert(doc) == Ok(Flattened([], []))
    ensures SheetsOf(Convert(doc).value) == []
  {
  }

  /** A key that is present keeps its value, so a present `data` that is not a
      dict raises instead of counting as absent, and so does a `docdata` that
      is None, a bool or a number (on `in`). */
  lemma PresentButWrongTypeFails(doc: Json)
    ensures !doc.JObj? ==> Convert(doc) == Err(NoGetAttribute(TypeOf(doc)))
    ensures doc.JObj? && "data" in doc.fields && !doc.fields["data"].JObj? ==>
      Convert(doc) == Err(NoGetAttribute(TypeOf(doc.fields["data"])))
    ensures doc.JObj? && "data" in doc.fields && doc.fields["data"].JObj?
      && "docdata" in doc.fields["data"].fields && doc.fields["data"].fields["docdata"] == JNull
      ==> Convert(doc) == Err(NotContainer(NoneType))
  {
  }

  /** `in` on a list tests its elements and on a str its substrings, so a
      `docdata` that is a list or str without either category key gives no
      rows and no error. */
  lemma ListOrStrDocDataYieldsNothing(doc: Json)
    ensures DocData(doc).Ok? && DocData(doc).value.JArr?
      && JStr("b2b") !in DocData(doc).value.items && JStr("cdnr") !in DocData(doc).value.items
      ==> Convert(doc) == Ok(Flattened([], []))
    ensures DocData(doc).Ok? && DocData(doc).value.JStr?
      && !IsSubstring("b2b", DocData(doc).value.s) && !IsSubstring("cdnr", DocData(doc).value.s)
      ==> Convert(doc) == Ok(Flattened([], []))
  {
  }

  /** The conversion reads nothing outside `data.docdata`: sibling keys such
      as `chksum`, `gstin` or `rtnprd` never change the result. */
  lemma ConvertReadsOnlyDocData(doc: Json, m: map<string, Json>)
    requires DocData(doc) == Ok(JObj(m))
    ensures Convert(doc) == Convert(Document(m))
  {
  }

  /** A successful conversion has, per category, as many rows as the listed
      suppliers have line items; a category that is absent, or whose value is
      not a list, contributes no rows. */
  lemma RowCount(cat: Category, doc: Json, m: map<string, Json>)
    requires DocData(doc) == Ok(JObj(m))
    requires Convert(doc).Ok?
    ensures |RowsOf(Convert(doc).value, cat)| == TotalItems(cat, Suppliers(cat, m))
  {
    var d := JObj(m);
    var sec := Section(cat, d);
    assert sec.Ok? && RowsOf(Convert(doc).value, cat) == sec.value by {
      match cat
      case B2B =>
      case CDNR =>
    }
    var key := SectionKey(cat);
    if key in m && !m[key].JArr? {
      var items := Iterate(m[key]).value;
      assert sec == FlattenSuppliers(cat, items);
      StringsYieldNoRows(cat, items);
    }
  }

  /** A category whose value in a dict docdata is not a list: None, a bool or
      a number raises on the `for`; a str or dict yields strs, so it gives no
      rows when empty and otherwise raises on the first supplier's `.get`. */
  lemma SectionNonList(cat: Category, docdata: Json)
    ensures docdata.JObj? && SectionKey(cat) in docdata.fields
      && (docdata.fields[SectionKey(cat)].JNull? || docdata.fields[SectionKey(cat)].JBool? || docdata.fields[SectionKey(cat)].JNum?)
      ==> Section(cat, docdata) == Err(NotIterable(TypeOf(docdata.fields[SectionKey(cat)])))
    ensures docdata.JObj? && SectionKey(cat) in docdata.fields
      && (docdata.fields[SectionKey(cat)].JStr? || docdata.fields[SectionKey(cat)].JObj?)
      ==> Section(cat, docdata) ==
          (if Len(docdata.fields[SectionKey(cat)]) == 0 then Ok([]) else Err(NoGetAttribute(StrType)))
  {
    if docdata.JObj? && SectionKey(cat) in docdata.fields {
      var v := docdata.fields[SectionKey(cat)];
      if (v.JStr? || v.JObj?) && Len(v) > 0 {
        FlattenStep(cat, Iterate(v).value);
      }
    }
  }

  /** Iterating a str or a dict yields strs, and the first `.get` on a str
      raises, so such a category only succeeds when it yields nothing. */
  lemma StringsYieldNoRows(cat: Category, items: seq<Json>)
    requires forall i :: 0 <= i < |items| ==> items[i].JStr?
    ensures FlattenSuppliers(cat, items).Ok? ==> |items| == 0
  {
    if |items| > 0 {
      FlattenStep(cat, items);
    }
  }

  lemma ConcatAssoc<T>(a: seq<T>, b: seq<T>, c: seq<T>)
    ensures a + (b + c) == (a + b) + c
  {
  }

  lemma IndexPastPrefix<T>(a: seq<T>, b: seq<T>, c: seq<T>, j: int)
    requires 0 <= j < |b|
    ensures |a| + j < |a + (b + c)| && (a + (b + c))[|a| + j] == b[j]
  {
  }

  /** One step of the outer loop: the first supplier's rows, then the rest's. */
  lemma FlattenStep(cat: Category, suppliers: seq<Json>)
    requires |suppliers| > 0
    ensures FlattenSuppliers(cat, suppliers).Ok? <==>
      SupplierRows(cat, suppliers[0]).Ok? && FlattenSuppliers(cat, suppliers[1..]).Ok?
    ensures SupplierRows(cat, suppliers[0]).Err? ==>
      FlattenSuppliers(cat, suppliers).error == SupplierRows(cat, suppliers[0]).error
    ensures SupplierRows(cat, suppliers[0]).Ok? && FlattenSuppliers(cat, suppliers[1..]).Err? ==>
      FlattenSuppliers(cat, suppliers).error == FlattenSuppliers(cat, suppliers[1..]).error
    ensures FlattenSuppliers(cat, suppliers).Ok? ==>
      FlattenSuppliers(cat, suppliers).value
        == SupplierRows(cat, suppliers[0]).value + FlattenSuppliers(cat, suppliers[1..]).value
  {
  }

  /** The outer loop succeeds exactly when every supplier does; otherwise it
      reports the error of the first supplier that fails. */
  lemma {:induction false} FlattenFailsAtFirstFailure(cat: Category, suppliers: seq<Json>)
    ensures FlattenSuppliers(cat, suppliers).Ok? <==>
      forall i :: 0 <= i < |suppliers| ==> SupplierRows(cat, suppliers[i]).Ok?
    ensures FlattenSuppliers(cat, suppliers).Err? ==>
      exists i :: FirstFailing(cat, suppliers, i) && FlattenSuppliers(cat, suppliers).error == SupplierRows(cat, suppliers[i]).error
  {
    if |suppliers| > 0 {
      FlattenStep(cat, suppliers);
      FlattenFailsAtFirstFailure(cat, suppliers[1..]);
      assert forall i :: 1 <= i < |suppliers| ==> suppliers[i] == suppliers[1..][i - 1];
      if SupplierRows(cat, suppliers[0]).Err? {
        assert FirstFailing(cat, suppliers, 0);
      } else if FlattenSuppliers(cat, suppliers[1..]).Err? {
        var i :| FirstFailing(cat, suppliers[1..], i)
          && FlattenSuppliers(cat, suppliers[1..]).error == SupplierRows(cat, suppliers[1..][i]).error;
        assert FirstFailing(cat, suppliers, i + 1);
      }
    }
  }

  /** The rows of a supplier list split at any point are the rows of the first
      part followed by the rows of the second; the first failing part decides
      the error and no rows are kept with it. */
  lemma {:induction false} FlattenAppend(cat: Category, xs: seq<Json>, ys: seq<Json>)
    ensures FlattenSuppliers(cat, xs).Err? ==> FlattenSuppliers(cat, xs + ys) == FlattenSuppliers(cat, xs)
    ensures FlattenSuppliers(cat, xs).Ok? && FlattenSuppliers(cat, ys).Err? ==>
      FlattenSuppliers(cat, xs + ys) == FlattenSuppliers(cat, ys)
    ensures FlattenSuppliers(cat, xs).Ok? && FlattenSuppliers(cat, ys).Ok? ==>
      FlattenSuppliers(cat, xs + ys) == Ok(FlattenSuppliers(cat, xs).value + FlattenSuppliers(cat, ys).value)
  {
    if |xs| == 0 {
      assert xs + ys == ys;
      if FlattenSuppliers(cat, ys).Ok? {
        assert [] + FlattenSuppliers(cat, ys).value == FlattenSuppliers(cat, ys).value;
      }
    } else {
      var zs := xs + ys;
      assert zs[0] == xs[0];
      assert zs[1..] == xs[1..] + ys;
      FlattenStep(cat, xs);
      FlattenStep(cat, zs);
      FlattenAppend(cat, xs[1..], ys);
      if FlattenSuppliers(cat, xs).Ok? && FlattenSuppliers(cat, ys).Ok? {
        ConcatAssoc(SupplierRows(cat, xs[0]).value, FlattenSuppliers(cat, xs[1..]).value,
                    FlattenSuppliers(cat, ys).value);
      }
    }
  }

  /** A single supplier's rows are that supplier's rows. */
  lemma FlattenSingle(cat: Category, supplier: Json)
    ensures FlattenSuppliers(cat, [supplier]) == SupplierRows(cat, supplier)
  {
    assert [supplier][1..] == [];
    if SupplierRows(cat, supplier).Ok? {
      assert SupplierRows(cat, supplier).value + [] == SupplierRows(cat, supplier).value;
    }
  }

  /** A successful outer loop had every supplier succeed. */
  lemma SupplierSucceeded(cat: Category, suppliers: seq<Json>, i: int)
    requires FlattenSuppliers(cat, suppliers).Ok? && 0 <= i < |suppliers|
    ensures SupplierRows(cat, suppliers[i]).Ok?
  {
    FlattenFailsAtFirstFailure(cat, suppliers);
  }

  /** A successful outer loop, split before supplier `i`: the rows of the
      suppliers before `i`, then supplier `i`'s rows, then the rest's. */
  lemma FlattenSplit(cat: Category, suppliers: seq<Json>, i: int)
    requires FlattenSuppliers(cat, suppliers).Ok? && 0 <= i < |suppliers|
    ensures FlattenSuppliers(cat, suppliers[..i]).Ok? && SupplierRows(cat, suppliers[i]).Ok?
    ensures FlattenSuppliers(cat, suppliers[i + 1..]).Ok?
    ensures FlattenSuppliers(cat, suppliers).value == FlattenSuppliers(cat, suppliers[..i]).value
      + (SupplierRows(cat, suppliers[i]).value + FlattenSuppliers(cat, suppliers[i + 1..]).value)
  {
    var before, after := suppliers[..i], suppliers[i..];
    assert before + after == suppliers;
    FlattenAppend(cat, before, after);
    assert after[0] == suppliers[i] && after[1..] == suppliers[i + 1..];
    FlattenStep(cat, after);
  }

  /** Document order: the rows of supplier `i` come right after the rows of
      the suppliers before it, in their own order. */
  lemma SupplierBlock(cat: Category, suppliers: seq<Json>, i: int, j: int)
    requires FlattenSuppliers(cat, suppliers).Ok?
    requires 0 <= i < |suppliers| && 0 <= j < ItemCount(cat, suppliers[i])
    ensures SupplierRows(cat, suppliers[i]).Ok? && j < |SupplierRows(cat, suppliers[i]).value|
    ensures TotalItems(cat, suppliers[..i]) + j < |FlattenSuppliers(cat, suppliers).value|
    ensures FlattenSuppliers(cat, suppliers).value[TotalItems(cat, suppliers[..i]) + j]
      == SupplierRows(cat, suppliers[i]).value[j]
  {
    FlattenSplit(cat, suppliers, i);
    var a := FlattenSuppliers(cat, suppliers[..i]).value;
    var mine := SupplierRows(cat, suppliers[i]).value;
    IndexPastPrefix(a, mine, FlattenSuppliers(cat, suppliers[i + 1..]).value, j);
    assert |a| == TotalItems(cat, suppliers[..i]);
  }

  /** Line item `j` of supplier `i` becomes the row after all line items of
      the suppliers before `i` and the items before `j`; it is that item's
      projection and carries supplier `i`'s GSTIN, trade name and filing date. */
  lemma RowPosition(cat: Category, suppliers: seq<Json>, i: int, j: int)
    requires FlattenSuppliers(cat, suppliers).Ok?
    requires 0 <= i < |suppliers| && 0 <= j < ItemCount(cat, suppliers[i])
    ensures suppliers[i].JObj? && j < |LineItems(cat, suppliers[i])| && LineItems(cat, suppliers[i])[j].JObj?
    ensures TotalItems(cat, suppliers[..i]) + j < |FlattenSuppliers(cat, suppliers).value|
    ensures FlattenSuppliers(cat, suppliers).value[TotalItems(cat, suppliers[..i]) + j]
      == RowOf(cat, SupplierOf(suppliers[i].fields), LineItems(cat, suppliers[i])[j].fields)
    ensures CarriesSupplier(FlattenSuppliers(cat, suppliers).value[TotalItems(cat, suppliers[..i]) + j], suppliers[i])
  {
    SupplierBlock(cat, suppliers, i, j);
    SupplierRowsProjectItems(cat, suppliers[i]);
  }

  /** A category's rows are read from its own key only. */
  lemma SectionReadsOnlyItsKey(cat: Category, m: map<string, Json>, m': map<string, Json>)
    requires AgreeOn(m, m', SectionKey(cat))
    ensures Section(cat, JObj(m)) == Section(cat, JObj(m'))
  {
  }

  /** When both conversions succeed, adding, removing or changing the other
      category never changes a category's rows. */
  lemma CategoriesIndependent(cat: Category, doc: Json, m: map<string, Json>, doc': Json, m': map<string, Json>)
    requires DocData(doc) == Ok(JObj(m)) && DocData(doc') == Ok(JObj(m'))
    requires AgreeOn(m, m', SectionKey(cat))
    requires Convert(doc).Ok? && Convert(doc').Ok?
    ensures RowsOf(Convert(doc).value, cat) == RowsOf(Convert(doc').value, cat)
  {
    SectionReadsOnlyItsKey(cat, m, m');
    match cat
    case B2B =>
    case CDNR =>
  }

  /** The other direction is not independent: a CDNR value that raises makes
      the whole conversion fail, so valid B2B rows are lost with it. */
  lemma FailingCdnrDropsB2B(doc: Json, m: map<string, Json>)
    requires DocData(doc) == Ok(JObj(m))
    requires "cdnr" in m && m["cdnr"] == JNull
    ensures Convert(doc) == (if Section(B2B, JObj(m)).Err? then Err(Section(B2B, JObj(m)).error)
                             else Err(NotIterable(NoneType)))
  {
  }

  /** A category holding an empty list gets no sheet. */
  lemma EmptyListGetsNoSheet(cat: Category, doc: Json, m: map<string, Json>)
    requires DocData(doc) == Ok(JObj(m))
    requires SectionKey(cat) in m && m[SectionKey(cat)] == EmptyList
    requires Convert(doc).Ok?
    ensures forall i :: 0 <= i < |SheetsOf(Convert(doc).value)| ==>
      SheetsOf(Convert(doc).value)[i].name != SheetName(cat)
  {
    RowCount(cat, doc, m);
    assert Suppliers(cat, m) == [];
    match cat
    case B2B =>
    case CDNR =>
  }

  /** A document with B2B rows and no `cdnr` key gets exactly one sheet, "B2B". */
  lemma OnlyB2BGetsOneSheet(doc: Json, m: map<string, Json>)
    requires DocData(doc) == Ok(JObj(m))
    requires "cdnr" !in m
    requires Convert(doc).Ok? && |Convert(doc).value.b2b| > 0
    ensures SheetsOf(Convert(doc).value) == [SheetFor(B2B, Convert(doc).value.b2b)]
  {
    RowCount(CDNR, doc, m);
  }

  /** A request without a usable file is answered 400 whatever its content and
      whatever the writer would do: nothing is processed. */
  lemma GuardsComeFirst(req: Request, write: seq<Sheet> -> WriterOutcome, write': seq<Sheet> -> WriterOutcome,
                        content: Parsed)
    requires NoFile(req)
    ensures Status(Handle(req, write)) == 400
    ensures Handle(req, write) == Handle(req, write')
    ensures "file" in req.files ==>
      Handle(req, write) == Handle(Request(req.files["file" := FileField("", content)]), write')
  {
  }

  /** A parse or flattening failure is answered 500 with that error, without
      calling the writer. */
  lemma FailureIsServerError(req: Request, write: seq<Sheet> -> WriterOutcome, write': seq<Sheet> -> WriterOutcome)
    requires !NoFile(req)
    requires req.files["file"].content.Unparsable? || Convert(req.files["file"].content.doc).Err?
    ensures Handle(req, write).ServerError?
    ensures Handle(req, write) == Handle(req, write')
    ensures req.files["file"].content.Unparsable? ==>
      Handle(req, write) == ServerError(NotJson(req.files["file"].content.message))
  {
  }

  /** The invoice of the worked example: IGST given, CGST and SGST absent. */
  function ExampleInvoice(): Json
  {
    JObj(map["inum" := JStr("INV1"), "dt" := JStr("01-01-2024"), "val" := JNum("1180"),
             "txval" := JNum("1000"), "igst" := JNum("180"), "pos" := JStr("29")])
  }

  function ExampleSupplier(): Json
  {
    JObj(map["ctin" := JStr("29ABCDE1234F1Z5"), "trdnm" := JStr("Acme"),
             "supfildt" := JStr("01-01-2024"), "inv" := JArr([ExampleInvoice()])])
  }

  /** The row the worked example expects. */
  function ExampleRow(): Row
  {
    B2BRow(JStr("29ABCDE1234F1Z5"), JStr("Acme"), JStr("INV1"), JStr("01-01-2024"),
           JNum("1180"), JNum("1000"), JNum("180"), Zero, Zero, JStr("29"), JStr("01-01-2024"))
  }

  /** The example invoice projects to the expected row: CGST and SGST are
      absent and become 0, the supplier fields are copied in. */
  lemma ExampleProjection()
    ensures RowOf(B2B, SupplierOf(ExampleSupplier().fields), ExampleInvoice().fields) == ExampleRow()
  {
    var item := ExampleInvoice().fields;
    assert "cgst" !in item && "sgst" !in item;
  }

  lemma ExampleSupplierRows()
    ensures SupplierRows(B2B, ExampleSupplier()) == Ok([ExampleRow()])
  {
    ExampleProjection();
    var items := ItemRows(B2B, SupplierOf(ExampleSupplier().fields), [ExampleInvoice()]);
    assert items.Ok? && |items.value| == 1 && items.value[0] == ExampleRow();
    assert items.value == [ExampleRow()];
  }

  /** One supplier with one invoice gives one B2B sheet with one row, the two
      absent tax fields filled with 0. */
  lemma WorkedExample()
    ensures Convert(Document(map["b2b" := JArr([ExampleSupplier()])])) == Ok(Flattened([ExampleRow()], []))
    ensures SheetsOf(Convert(Document(map["b2b" := JArr([ExampleSupplier()])])).value) ==
      [Sheet("B2B", Header(B2B),
             [[JStr("29ABCDE1234F1Z5"), JStr("Acme"), JStr("INV1"), JStr("01-01-2024"),
               JNum("1180"), JNum("1000"), JNum("180"), Zero, Zero, JStr("29"), JStr("01-01-2024")]])]
  {
    ExampleSupplierRows();
    FlattenSingle(B2B, ExampleSupplier());
    var docdata := map["b2b" := JArr([ExampleSupplier()])];
    assert "cdnr" !in docdata;
    assert Table([ExampleRow()]) == [Cells(ExampleRow())];
  }
}

=== FILE: python.dfy ===
/**
 The handful of Python operations the converter applies to the parsed
 document, with the exceptions Python raises when the value has the wrong
 shape. An exception becomes an `Err` carrying which operation failed and on
 what type of value; the wording of Python's message is not modelled.
 */
module Python {
  import opened JsonValue

  datatype Error =
    | NoGetAttribute(on: PyType)      // `x.get(...)` on a non-dict: AttributeError
    | NotContainer(on: PyType)        // `k in x` on None, a bool or a number: TypeError
    | BadSubscript(on: PyType)        // `x[k]` with a str key on a non-dict: TypeError
    | MissingKey(key: string)         // `x[k]` on a dict without `k`: KeyError
    | NotIterable(on: PyType)         // `for _ in x` on None, a bool or a number: TypeError
    | NotJson(message: string)        // `json.load` rejected the upload
    | WriterFailed(message: string)   // the spreadsheet writer raised

  /** A value, or the exception that stopped the computation. */
  datatype Result<+T> = Ok(value: T) | Err(error: Error)
  {
    predicate IsFailure() {
      Err?
    }

    function PropagateFailure<U>(): Result<U>
      requires Err?
    {
      Err(error)
    }

    function Extract(): T
      requires Ok?
    {
      value
    }
  }

  /** The value stored under `key`, or `default` when the key is absent. A key
      that is present keeps its value, even when that value is null. */
  function Lookup(m: map<string, Json>, key: string, default: Json): Json
  {
    if key in m then m[key] else default
  }

  /** `v.get(key, default)`. */
  function GetOr(v: Json, key: string, default: Json): (r: Result<Json>)
    ensures r.Ok? <==> v.JObj?
    ensures r.Err? ==> r.error == NoGetAttribute(TypeOf(v))
  {
    match v
    case JObj(m) => Ok(Lookup(m, key, default))
    case _ => Err(NoGetAttribute(TypeOf(v)))
  }

  /** Python's `p in s` on two strings: `p` occurs in `s` as a contiguous part. */
  predicate IsSubstring(p: string, s: string)
    decreases |s|
  {
    p <= s || (|s| > 0 && IsSubstring(p, s[1..]))
  }

  /** `key in v`: key membership for a dict, element equality for a list,
      substring search for a str; None, bools and numbers raise. */
  function Contains(v: Json, key: string): (r: Result<bool>)
    ensures r.Ok? <==> v.JObj? || v.JArr? || v.JStr?
    ensures r.Err? ==> r.error == NotContainer(TypeOf(v))
  {
    match v
    case JObj(m) => Ok(key in m)
    case JArr(xs) => Ok(JStr(key) in xs)
    case JStr(s) => Ok(IsSubstring(key, s))
    case _ => Err(NotContainer(TypeOf(v)))
  }

  /** `v[key]` with a str key: only a dict holding the key answers. */
  function Subscript(v: Json, key: string): (r: Result<Json>)
    ensures r.Ok? <==> v.JObj? && key in v.fields
  {
    match v
    case JObj(m) => if key in m then Ok(m[key]) else Err(MissingKey(key))
    case _ => Err(BadSubscript(TypeOf(v)))
  }

  /** Python's `len(v)` for the values that have one (a list, a str, a dict);
      Python raises on the others, and this function answers 0 for them. */
  function Len(v: Json): nat
  {
    match v
    case JArr(xs) => |xs|
    case JStr(s) => |s|
    case JObj(m) => |m|
    case _ => 0
  }

  /** The one-character strings that iterating a str yields. */
  function Chars(s: string): (r: seq<Json>)
    ensures |r| == |s|
    ensures forall i :: 0 <= i < |r| ==> r[i] == JStr([s[i]])
  {
    if |s| == 0 then [] else [JStr([s[0]])] + Chars(s[1..])
  }

  /** The keys that iterating a dict yields, each exactly once, as strings. Python
      yields them in insertion order, which a map does not record; the order
      chosen here is fixed but arbitrary. */
  ghost function KeyItems(m: map<string, Json>): (r: seq<Json>)
    ensures |r| == |m|
    ensures forall i :: 0 <= i < |r| ==> r[i].JStr? && r[i].s in m
    ensures forall i, j :: 0 <= i < j < |r| ==> r[i] != r[j]
    decreases |m|
  {
    if |m| == 0 then []
    else
      var k :| k in m;
      var rest := m - {k};
      assert rest.Keys == m.Keys - {k};
      var tail := KeyItems(rest);
      assert forall i :: 0 <= i < |tail| ==> tail[i] != JStr(k);
      [JStr(k)] + tail
  }

  /** The items `for x in v` visits: a list's elements, a str's characters,
      a dict's keys; None, bools and numbers raise. */
  ghost function Iterate(v: Json): (r: Result<seq<Json>>)
    ensures r.Ok? <==> v.JArr? || v.JStr? || v.JObj?
    ensures r.Err? ==> r.error == NotIterable(TypeOf(v))
    ensures r.Ok? ==> |r.value| == Len(v)
    ensures v.JArr? ==> r == Ok(v.items)
    ensures r.Ok? && !v.JArr? ==> forall i :: 0 <= i < |r.value| ==> r.value[i].JStr?
  {
    match v
    case JArr(xs) => Ok(xs)
    case JStr(s) => Ok(Chars(s))
    case JObj(m) => Ok(KeyItems(m))
    case _ => Err(NotIterable(TypeOf(v)))
  }
}

=== FILE: rows.dfy ===
/**
 The two row shapes the converter produces, one per record category, and the
 column layout each follows: which header a column carries and where its
 value comes from (a supplier field, or a line-item field with a default).
 */
module Rows {
  import opened JsonValue
  import opened Python

  /** B2B: invoices under `b2b[*].inv`. CDNR: credit/debit notes under `cdnr[*].nt`. */
  datatype Category = B2B | CDNR

  /** The `docdata` key holding the category's suppliers. */
  function SectionKey(cat: Category): string
  {
    match cat
    case B2B => "b2b"
    case CDNR => "cdnr"
  }

  /** The supplier key holding the category's line items. */
  function ItemsKey(cat: Category): string
  {
    match cat
    case B2B => "inv"
    case CDNR => "nt"
  }

  /** The name of the category's sheet. */
  function SheetName(cat: Category): string
  {
    match cat
    case B2B => "B2B"
    case CDNR => "CDNR"
  }

  /** The supplier-level values, read once per supplier with `.get`. */
  datatype Supplier = Supplier(gstin: Json, tradeName: Json, filingDate: Json)

  function SupplierOf(m: map<string, Json>): Supplier
  {
    Supplier(Lookup(m, "ctin", JNull), Lookup(m, "trdnm", JNull), Lookup(m, "supfildt", JNull))
  }

  /** One output row; the fields are listed in column order. */
  datatype Row =
    | B2BRow(gstin: Json, tradeName: Json, invoiceNo: Json, date: Json, value: Json,
             taxableVal: Json, igst: Json, cgst: Json, sgst: Json, pos: Json, filingDate: Json)
    | CdnrRow(gstin: Json, tradeName: Json, noteNo: Json, noteDate: Json, noteType: Json, value: Json,
              taxableVal: Json, igst: Json, cgst: Json, sgst: Json, filingDate: Json)

  /** The row a line item `item` of supplier `sup` becomes. */
  function RowOf(cat: Category, sup: Supplier, item: map<string, Json>): (r: Row)
    ensures r.B2BRow? <==> cat == B2B
    ensures r.gstin == sup.gstin && r.tradeName == sup.tradeName && r.filingDate == sup.filingDate
  {
    match cat
    case B2B =>
      B2BRow(sup.gstin, sup.tradeName,
             Lookup(item, "inum", JNull), Lookup(item, "dt", JNull),
             Lookup(item, "val", JNull), Lookup(item, "txval", JNull),
             Lookup(item, "igst", Zero), Lookup(item, "cgst", Zero), Lookup(item, "sgst", Zero),
             Lookup(item, "pos", JNull), sup.filingDate)
    case CDNR =>
      CdnrRow(sup.gstin, sup.tradeName,
              Lookup(item, "ntnum", JNull), Lookup(item, "dt", JNull), Lookup(item, "nttyp", JNull),
              Lookup(item, "val", JNull), Lookup(item, "txval", JNull),
              Lookup(item, "igst", Zero), Lookup(item, "cgst", Zero), Lookup(item, "sgst", Zero),
              sup.filingDate)
  }

  /** The cells of a row, left to right. */
  function Cells(r: Row): seq<Json>
  {
    match r
    case B2BRow(g, t, n, d, v, tv, i, c, s, p, f) => [g, t, n, d, v, tv, i, c, s, p, f]
    case CdnrRow(g, t, n, d, ty, v, tv, i, c, s, f) => [g, t, n, d, ty, v, tv, i, c, s, f]
  }

  /** Where a column's value comes from. */
  datatype Source =
    | SupplierField(key: string)               // `supplier.get(key)`
    | ItemField(key: string, default: Json)    // `item.get(key, default)`

  datatype Column = Column(name: string, source: Source)

  /** The column layout of each sheet, as the row dicts of the converter list it. */
  function Layout(cat: Category): seq<Column>
  {
    match cat
    case B2B =>
      [ Column("GSTIN", SupplierField("ctin")),
        Column("Trade Name", SupplierField("trdnm")),
        Column("Invoice No", ItemField("inum", JNull)),
        Column("Date", ItemField("dt", JNull)),
        Column("Value", ItemField("val", JNull)),
        Column("Taxable Val", ItemField("txval", JNull)),
        Column("IGST", ItemField("igst", Zero)),
        Column("CGST", ItemField("cgst", Zero)),
        Column("SGST", ItemField("sgst", Zero)),
        Column("POS", ItemField("pos", JNull)),
        Column("Filing Date", SupplierField("supfildt")) ]
    case CDNR =>
      [ Column("GSTIN", SupplierField("ctin")),
        Column("Trade Name", SupplierField("trdnm")),
        Column("Note No", ItemField("ntnum", JNull)),
        Column("Note Date", ItemField("dt", JNull)),
        Column("Note Type", ItemField("nttyp", JNull)),
        Column("Value", ItemField("val", JNull)),
        Column("Taxable Val", ItemField("txval", JNull)),
        Column("IGST", ItemField("igst", Zero)),
        Column("CGST", ItemField("cgst", Zero)),
        Column("SGST", ItemField("sgst", Zero)),
        Column("Filing Date", SupplierField("supfildt")) ]
  }

  /** The header row of a sheet. */
  function Header(cat: Category): (h: seq<string>)
    ensures |h| == |Layout(cat)|
    ensures forall c :: 0 <= c < |h| ==> h[c] == Layout(cat)[c].name
  {
    seq(|Layout(cat)|, c requires 0 <= c < |Layout(cat)| => Layout(cat)[c].name)
  }

  /** The value a column takes for line item `item` of supplier `supplier`. */
  function Resolve(src: Source, supplier: map<string, Json>, item: map<string, Json>): Json
  {
    match src
    case SupplierField(k) => Lookup(supplier, k, JNull)
    case ItemField(k, d) => Lookup(item, k, d)
  }

  /** Each cell of a row holds exactly what its column's source names:
      a row has one cell per header, in header order. */
  lemma RowFollowsLayout(cat: Category, supplier: map<string, Json>, item: map<string, Json>)
    ensures |Cells(RowOf(cat, SupplierOf(supplier), item))| == |Header(cat)|
    ensures forall c :: 0 <= c < |Layout(cat)| ==>
      Cells(RowOf(cat, SupplierOf(supplier), item))[c] == Resolve(Layout(cat)[c].source, supplier, item)
  {
  }

  /** Both sheets have 11 columns, GSTIN first and Filing Date last; only B2B has POS;
      only CDNR has the note columns. */
  lemma HeaderShape()
    ensures Header(B2B) == ["GSTIN", "Trade Name", "Invoice No", "Date", "Value", "Taxable Val",
                            "IGST", "CGST", "SGST", "POS", "Filing Date"]
    ensures Header(CDNR) == ["GSTIN", "Trade Name", "Note No", "Note Date", "Note Type", "Value",
                             "Taxable Val", "IGST", "CGST", "SGST", "Filing Date"]
    ensures "POS" in Header(B2B) && "POS" !in Header(CDNR)
    ensures forall r: Row :: |Cells(r)| == 11
  {
    var b := Header(B2B);
    var n := Header(CDNR);
    assert b[9] == "POS";
    assert forall c :: 0 <= c < |n| ==> n[c] != "POS";
  }

  /** The three tax cells are 0 when the item lacks the key, and the item's own
      value otherwise (an explicit null stays null); every other item cell is
      null when the key is absent. */
  lemma TaxDefaults(cat: Category, sup: Supplier, item: map<string, Json>)
    ensures "igst" !in item ==> RowOf(cat, sup, item).igst == Zero
    ensures "cgst" !in item ==> RowOf(cat, sup, item).cgst == Zero
    ensures "sgst" !in item ==> RowOf(cat, sup, item).sgst == Zero
    ensures "igst" in item ==> RowOf(cat, sup, item).igst == item["igst"]
    ensures "cgst" in item ==> RowOf(cat, sup, item).cgst == item["cgst"]
    ensures "sgst" in item ==> RowOf(cat, sup, item).sgst == item["sgst"]
    ensures "val" !in item ==> RowOf(cat, sup, item).value == JNull
    ensures "txval" !in item ==> RowOf(cat, sup, item).taxableVal == JNull
  {
  }
}

=== FILE: sheets.dfy ===
/**
 What the handler gives the spreadsheet writer: a sheet per non-empty
 category, each a header row followed by one data row per flattened row.
 */
module Sheets {
  import opened JsonValue
  import opened Rows
  import opened Flatten

  datatype Sheet = Sheet(name: string, header: seq<string>, rows: seq<seq<Json>>)

  /** The data rows of a sheet, in accumulation order. */
  function Table(rows: seq<Row>): (t: seq<seq<Json>>)
    ensures |t| == |rows|
    ensures forall i :: 0 <= i < |rows| ==> t[i] == Cells(rows[i])
  {
    if |rows| == 0 then [] else [Cells(rows[0])] + Table(rows[1..])
  }

  function SheetFor(cat: Category, rows: seq<Row>): Sheet
  {
    Sheet(SheetName(cat), Header(cat), Table(rows))
  }

  /** The sheets written, in writing order: "B2B" when there is a B2B row,
      then "CDNR" when there is a CDNR row. */
  function SheetsOf(f: Flattened): (r: seq<Sheet>)
    ensures |r| == (if |f.b2b| > 0 then 1 else 0) + (if |f.cdnr| > 0 then 1 else 0)
    ensures (exists i :: 0 <= i < |r| && r[i].name == "B2B") <==> |f.b2b| > 0
    ensures (exists i :: 0 <= i < |r| && r[i].name == "CDNR") <==> |f.cdnr| > 0
    ensures forall i :: 0 <= i < |r| ==> r[i] == SheetFor(B2B, f.b2b) || r[i] == SheetFor(CDNR, f.cdnr)
    ensures forall i :: 0 <= i < |r| ==> |r[i].rows| > 0
    ensures |r| == 2 ==> r[0].name == "B2B" && r[1].name == "CDNR"
  {
    assert SheetName(B2B) != SheetName(CDNR) by {
      assert SheetName(B2B)[0] != SheetName(CDNR)[0];
    }
    var b2b := if |f.b2b| > 0 then [SheetFor(B2B, f.b2b)] else [];
    var cdnr := if |f.cdnr| > 0 then [SheetFor(CDNR, f.cdnr)] else [];
    var r := b2b + cdnr;
    assert |f.b2b| > 0 ==> r[0].name == "B2B";
    assert |f.cdnr| > 0 ==> r[|r| - 1].name == "CDNR";
    r
  }
}
